=== FILE: README.md ===
# tritiumcan-smoltcp TCP session server, modelled in Dafny

tritiumcan-smoltcp tunnels CAN bus frames over one TCP connection. Its core is
the per-connection `Server` of `src/tcp.rs`. The server has three state fields:
`last_heartbeat`, `tx_start` (the identity packet was handed to the socket) and
`rx_start` (the peer's greeting was discarded). Four operations drive them:

- `poll` re-arms a closed socket with a passive listen. It resets both flags when the peer half-closes. On a writable socket it hands over the identity packet once and sends a heartbeat when one is due.
- `send_heartbeat` sends an explicit heartbeat.
- `send_frame` offers one CAN frame.
- `recv_frame` discards the greeting once, then returns one frame per full read.

The model has three modules:

- `TcpSocket` (`socket.dfy`) is an abstract smoltcp TCP socket. It holds the connection state, the `can_send` / `can_recv` flags and the receive and transmit byte queues. The outcome of every library call (`listen`, `send_slice`, `recv_slice`) is a parameter. A send may accept any prefix of what it is offered, possibly empty, or refuse.
- `TcpServer` (`server.dfy`) holds `Server::new`, `poll`, `write_heartbeat`, `send_heartbeat`, `send_frame` and `recv_frame`. Each is a pure function from server, socket and outcomes to the next server, the next socket and the result. `poll` also returns the list of socket calls it made.
- `TcpServerRuns` (`runs.dfy`) covers sequences of operations. The socket may change arbitrarily between calls. Over such runs it proves three things: one identity send per connection (at most once for any send outcome, exactly once when every identity send is accepted), heartbeat spacing, and frame alignment after the greeting.

The crate constants (`PORT`, `HEARTBEAT_INTERVAL`, `size_of::<Frame>()`) and the
codec's two records (identity packet, heartbeat record) are fields of `Config`, so
every result holds for any values of them. The priming buffer width, 30 bytes, is
a literal in the source and is the constant `PrimeWidth`.

The model relies on these facts about smoltcp:

- `is_open` is false only in Closed and TimeWait, and `is_listening` means Listen.
- A successful `listen` resets the socket (both queues empty, neither side ready) and enters Listen.
- `close` from CloseWait enters LastAck.
- `Instant - Instant` is the absolute distance.
- `SendError` has the single variant `InvalidState`.
- `send_slice` refuses a send only when the socket may not send, so a send made right after `can_send()` held is never refused. Because `can_send()` also means the transmit buffer is not full, such a send takes at least one byte. A later send in the same poll (the heartbeat after the identity packet) may take none. The model nevertheless leaves every send outcome free, and `IdentityExactlyOnceWhenAccepted` states its result under this fact.

Several behaviours of the code are easy to misread. The model follows the
code:

- The heartbeat is due only when strictly more than the interval has passed (`>`, not `>=`).
- The first readable `recv_frame` discards up to 30 bytes, not one frame width. In the same call it goes on to read a frame and may return it (`GreetingSkippedThenFrame`).
- `send_frame` returns `Err(InvalidState)` on every path, even after the socket accepted the frame.
- Besides `can_send`, only `tx_start` guards `send_frame`. `recv_frame` does not look at `tx_start`. Neither `send_heartbeat` nor the heartbeat in `poll` needs `tx_start`.
- Any `Ok` from the identity send sets `tx_start`, even one that took fewer bytes than the packet (`PartialIdentitySendStillStarts`). The rest of the packet is never re-sent, so the peer sees a truncated identity. The model also covers an `Ok` that took no byte (`EmptyIdentitySendStillStarts`). That path is not reached on a real socket, because the send follows `can_send()`; the reachable case is a partial `Ok`.
- Any `Ok` from the heartbeat send in `poll` moves `last_heartbeat` to `now`, even one that queued only part of the record, or no byte (`EmptyHeartbeatStillMovesClock`). smoltcp does not refuse a send right after `can_send()`, so these short `Ok`s are the failures that can really happen in `poll`, and neither is retried. A partial `Ok` needs only a nearly full buffer. A zero-byte `Ok` happens only when the identity send in the same poll filled the transmit buffer. The retry on a refused heartbeat (`HeartbeatRetried`) is not reached from `poll` on a real socket.
- A connection ends for the server only at a poll that finds CloseWait. If the library drops a connection straight to Closed (a reset from the peer, or the idle timeout), the re-arming poll keeps `tx_start` and `rx_start`. The next connection then gets no identity packet, and its first frame-width bytes, part of the peer's greeting, come back from `recv_frame` as a frame (`AbortKeepsFlags`).

## Model

| member | source | states |
|---|---|---|
| `TcpServer.New` | tritiumcan-smoltcp/src/tcp.rs:33-55 | a new server has both flags false and its heartbeat clock at `now`; its socket starts closed with empty queues |
| `TcpServer.NeedsListenExactlyWhenClosed` | tritiumcan-smoltcp/src/tcp.rs:60-61 | the socket needs a listen exactly when it is Closed or TimeWait, so the inner `is_listening` test never decides anything |
| `TcpServer.Arm` | tritiumcan-smoltcp/src/tcp.rs:60-67 | listen is tried only when the socket needs it; a refused bind or a socket that needs no listen leaves the socket as it was; a successful bind leaves it listening and not writable; arming never creates or removes CloseWait |
| `TcpServer.StartTx` | tritiumcan-smoltcp/src/tcp.rs:78-90 | the identity packet is offered iff `tx_start` is false; `tx_start` becomes true iff it was true or the send returned any `Ok`; the socket gains exactly the accepted prefix of the packet |
| `TcpServer.WriteHeartbeat` | tritiumcan-smoltcp/src/tcp.rs:116-124 | the call succeeds iff the socket accepts the send, propagates the refusal otherwise, and enqueues exactly the accepted prefix of the heartbeat record |
| `TcpServer.BeatIfDue` | tritiumcan-smoltcp/src/tcp.rs:92-100 | a heartbeat is tried iff the elapsed time strictly exceeds the interval; the clock moves to `now` only when that send is accepted; nothing else changes |
| `TcpServer.Poll` | tritiumcan-smoltcp/src/tcp.rs:57-102 | listen only on a Closed/TimeWait socket; on CloseWait: close, clear both flags, no identity or heartbeat, clock kept; otherwise `rx_start` kept, identity offered iff writable and not yet started, `tx_start` set iff already set or an identity send was accepted, heartbeat iff writable and strictly due, clock set to `now` only on an accepted heartbeat, transmit queue gains exactly the accepted identity bytes followed by the accepted heartbeat bytes |
| `TcpServer.SendHeartbeat` | tritiumcan-smoltcp/src/tcp.rs:104-114 | the explicit heartbeat changes no server field, the heartbeat clock included; it succeeds iff the send is accepted |
| `TcpServer.SendFrame` | tritiumcan-smoltcp/src/tcp.rs:126-141 | the result is `Err(InvalidState)` on every path; the frame is enqueued only when the socket can send and `tx_start` holds; a send refusal is the returned error; no server field changes |
| `TcpServer.Discarded` | tritiumcan-smoltcp/src/tcp.rs:151-154 | the priming read takes at most 30 bytes and never more than are queued |
| `TcpServer.RecvFrame` | tritiumcan-smoltcp/src/tcp.rs:143-167 | not readable: `Ok(None)`, socket and flags untouched; readable: `rx_start` becomes true and is never cleared, the greeting is skipped once, the read returns `Some(f)` iff it was delivered and a full frame width was queued after the skip, in which case `f` is exactly the next frame-width bytes and the rest stay queued; a short read consumes what is left and returns `None`; a refused read returns that error; only the receive queue changes |
| `TcpServerRuns.Next` | tritiumcan-smoltcp/src/tcp.rs:19-30 | no operation changes the server's configuration fields |
| `TcpServerRuns.TxStartStep` | tritiumcan-smoltcp/src/tcp.rs:70-90 | only a half-close poll clears `tx_start`; otherwise it is set after an operation iff it was set before or that operation's identity send was accepted, which a set flag rules out |
| `TcpServerRuns.IdentityAtMostOncePerConnection` | tritiumcan-smoltcp/src/tcp.rs:70-90 | over any run, accepted identity sends plus an initial `tx_start` are at most one more than the number of half-close resets; with no reset, `tx_start` ends set iff it started set or an identity send was accepted |
| `TcpServerRuns.IdentityOnceWithoutReset` | tritiumcan-smoltcp/src/tcp.rs:77-90 | within one connection at most one identity send is accepted, and none once `tx_start` holds |
| `TcpServerRuns.IdentityExactlyOnceWhenAccepted` | tritiumcan-smoltcp/src/tcp.rs:77-90 | within one connection, if the library accepts every identity send, the identity packet is handed over exactly once when some poll finds the socket writable while `tx_start` is clear, and never otherwise |
| `TcpServerRuns.HeartbeatStep` | tritiumcan-smoltcp/src/tcp.rs:92-124 | only an accepted heartbeat in `poll` moves the clock, to that poll's `now`, and only when strictly more than the interval had passed; `send_heartbeat`, `send_frame` and `recv_frame` leave it unchanged |
| `TcpServerRuns.HeartbeatsSpaced` | tritiumcan-smoltcp/src/tcp.rs:92-100 | on a clock that never runs backwards, successive heartbeats accepted by `poll` are strictly more than the interval apart, and the first comes strictly more than the interval after the server's clock |
| `TcpServerRuns.HeartbeatRetried` | tritiumcan-smoltcp/src/tcp.rs:92-100 | a refused heartbeat leaves the clock unchanged, so the next poll on a writable socket at the same or a later instant tries again; smoltcp does not refuse a send right after `can_send()`, so from `poll` this path is not reached on a real socket |
| `TcpServerRuns.DrainReturnsFrames` | tritiumcan-smoltcp/src/tcp.rs:159-166 | once `rx_start` holds, frames queued back to back come out one per call, in order, each call consuming exactly its own frame's bytes |
| `TcpServerRuns.GreetingSkippedThenFrame` | tritiumcan-smoltcp/src/tcp.rs:150-166 | the first read drops a 30-byte greeting and, in the same call, returns the frame queued behind it |
| `TcpServerRuns.ShortGreetingReturnsNothing` | tritiumcan-smoltcp/src/tcp.rs:151-163 | when no more than 30 bytes are queued, the priming read takes them all and the first call returns no frame |
| `TcpServerRuns.FreshSessionFirstPoll` | tritiumcan-smoltcp/src/tcp.rs:46-67 | the first poll of a new server only tries to listen: no identity, no heartbeat, no field change, nothing enqueued, whatever the bind does |
| `TcpServerRuns.ListenRefusedChangesNothing` | tritiumcan-smoltcp/src/tcp.rs:60-67 | a refused bind on a closed socket that cannot send changes no server field and leaves the socket as it was |
| `TcpServerRuns.ResetThenRearm` | tritiumcan-smoltcp/src/tcp.rs:60-75 | after a half-close reset both flags are false; the next poll on a socket the library has closed tries to listen, changes no field, and leaves the socket listening if the bind succeeds |
| `TcpServerRuns.EmptyHeartbeatStillMovesClock` | tritiumcan-smoltcp/src/tcp.rs:92-94 | a due heartbeat that is accepted with zero bytes still moves the clock to `now`, and none of the record reaches the transmit queue (on a real socket, only when the identity send in the same poll filled the buffer) |
| `TcpServerRuns.AbortKeepsFlags` | tritiumcan-smoltcp/src/tcp.rs:57-166 | a poll on a socket the library closed without CloseWait keeps both flags and the server unchanged; on the next writable connection no identity is offered, and the first read returns the first frame-width queued bytes as a frame |
| `TcpServerRuns.EmptyIdentitySendStillStarts` | tritiumcan-smoltcp/src/tcp.rs:87-89 | an identity send that is accepted with zero bytes still sets `tx_start`, and none of the packet reaches the transmit queue (not reached after `can_send()` on a real socket) |
| `TcpServerRuns.PartialIdentitySendStillStarts` | tritiumcan-smoltcp/src/tcp.rs:87-89 | an identity send accepted for only the first `n` bytes, 0 < n < packet length, still sets `tx_start`; only that prefix reaches the transmit queue, ahead of any heartbeat bytes, and the rest is never re-sent |

## Left out

- The smoltcp TCP internals (handshake, retransmission, windows, buffer storage) are not modelled. The socket is the abstract record above, and its readiness flags and call outcomes are inputs. `can_send` and `can_recv` are free flags rather than derived from the queues.
- The idle timeout set when the socket is created is not modelled, because it lives inside smoltcp.
- `close` is modelled only from CloseWait, the one state in which the server calls it.
- The `register_recv_waker` / `register_send_waker` methods are not modelled. They only forward a waker to the library.
- `defmt` logging of a refused bind or heartbeat is not modelled. It is a side effect with no state.
- The wire codec of the `tritiumcan` crate (`Header`, `Frame::from_frame`, `Packet::new_heartbeat`) is not part of this model. The identity packet, the heartbeat record and each outgoing frame are opaque byte strings. The frame width is a configuration value.
- The `Frame::from_frame(..).unwrap()` panic is not modelled. `SendFrame` requires a frame already in its fixed-width wire form.
- Time is not the 64-bit microsecond `Instant`. It is unbounded clock ticks, so overflow of the instant is not modelled.
- HeartbeatsSpaced: proves only the lower bound on heartbeat spacing. Any upper bound depends on how often the host calls `poll`, which the server does not control.
- IdentityAtMostOncePerConnection: proves at most one accepted identity send per connection, for every send outcome, including refusals that smoltcp would not produce after `can_send()`. The exactly-once form, under smoltcp's fact that such a send is never refused, is `IdentityExactlyOnceWhenAccepted`. Also, the run counts connections only by CloseWait polls: a connection the library drops straight to Closed does not reset the flags, so its successor gets no identity packet at all (`AbortKeepsFlags`).

=== FILE: runs.dfy ===
/** Sequences of server operations. Between two calls the network and the
    library may change the socket arbitrarily, so each input carries the
    socket as the server finds it together with the library's outcomes. */
module TcpServerRuns {
  import opened TcpSocket
  import opened TcpServer

  datatype Input =
    | PollInput(sock: Socket, now: nat, listen: ListenOutcome, identity: SendOutcome, heartbeat: SendOutcome)
    | HeartbeatInput(sock: Socket, outcome: SendOutcome)
    | SendFrameInput(sock: Socket, frame: Bytes, outcome: SendOutcome)
    | RecvFrameInput(sock: Socket, prime: RecvOutcome, read: RecvOutcome)

  /** The library reports no more bytes than offered, and frames have frame width. */
  predicate Admissible(config: Config, i: Input) {
    match i
    case PollInput(_, _, _, identity, heartbeat) =>
      identity.FitsIn(|config.identity|) && heartbeat.FitsIn(|config.heartbeat|)
    case HeartbeatInput(_, outcome) => outcome.FitsIn(|config.heartbeat|)
    case SendFrameInput(_, frame, outcome) => |frame| == config.frameWidth && outcome.FitsIn(|frame|)
    case RecvFrameInput(_, _, _) => true
  }

  predicate AllAdmissible(config: Config, ins: seq<Input>) {
    forall k :: 0 <= k < |ins| ==> Admissible(config, ins[k])
  }

  /** The server after one operation. */
  function Next(s: Server, i: Input): (r: Server)
    requires Admissible(s.config, i)
    ensures r.config == s.config
  {
    match i
    case PollInput(sock, now, listen, identity, heartbeat) => Poll(s, sock, now, listen, identity, heartbeat).server
    case HeartbeatInput(sock, outcome) => SendHeartbeat(s, sock, outcome).server
    case SendFrameInput(sock, frame, outcome) => SendFrame(s, sock, frame, outcome).server
    case RecvFrameInput(sock, prime, read) => RecvFrame(s, sock, prime, read).server
  }

  function Final(s: Server, ins: seq<Input>): Server
    requires AllAdmissible(s.config, ins)
    decreases |ins|
  {
    if ins == [] then s else Final(Next(s, ins[0]), ins[1..])
  }

  /** A poll that finds the peer has half-closed the connection. */
  predicate IsReset(i: Input) {
    i.PollInput? && i.sock.state == CloseWait
  }

  /** A poll whose identity send was made and accepted. */
  predicate IdentityAccepted(s: Server, i: Input)
    requires Admissible(s.config, i)
  {
    && i.PollInput?
    && IdentityCall in Poll(s, i.sock, i.now, i.listen, i.identity, i.heartbeat).result
    && i.identity.Accepted?
  }

  /** A poll whose heartbeat send was made and accepted. */
  predicate HeartbeatAccepted(s: Server, i: Input)
    requires Admissible(s.config, i)
  {
    && i.PollInput?
    && HeartbeatCall in Poll(s, i.sock, i.now, i.listen, i.identity, i.heartbeat).result
    && i.heartbeat.Accepted?
  }

  function Resets(ins: seq<Input>): nat {
    if ins == [] then 0 else (if IsReset(ins[0]) then 1 else 0) + Resets(ins[1..])
  }

  /** How many identity packets the socket accepted over the run. */
  function IdentitySends(s: Server, ins: seq<Input>): nat
    requires AllAdmissible(s.config, ins)
    decreases |ins|
  {
    if ins == [] then 0
    else (if IdentityAccepted(s, ins[0]) then 1 else 0) + IdentitySends(Next(s, ins[0]), ins[1..])
  }

  /** The instants at which `poll` had a heartbeat accepted, in order. */
  function HeartbeatTimes(s: Server, ins: seq<Input>): seq<nat>
    requires AllAdmissible(s.config, ins)
    decreases |ins|
  {
    if ins == [] then []
    else (if HeartbeatAccepted(s, ins[0]) then [ins[0].now] else []) + HeartbeatTimes(Next(s, ins[0]), ins[1..])
  }

  /** The clock never runs backwards: every poll's instant is at least `t`
      and at least that of every earlier poll. */
  predicate ClockFrom(t: nat, ins: seq<Input>)
    decreases |ins|
  {
    ins == [] ||
    if ins[0].PollInput? then ins[0].now >= t && ClockFrom(ins[0].now, ins[1..])
    else ClockFrom(t, ins[1..])
  }

  /** Every instant is strictly more than `gap` after the one before it, the first after `t`. */
  predicate Spaced(t: nat, times: seq<nat>, gap: nat)
    decreases |times|
  {
    times == [] || (times[0] > t + gap && Spaced(times[0], times[1..], gap))
  }

  function TxCount(s: Server): nat {
    if s.txStart then 1 else 0
  }

  lemma AdmissibleTail(s: Server, ins: seq<Input>)
    requires ins != [] && AllAdmissible(s.config, ins)
    ensures Admissible(s.config, ins[0])
    ensures AllAdmissible(Next(s, ins[0]).config, ins[1..])
  {
  }

  /** One operation: `txStart` is cleared only by a reset poll, and is set
      only by an accepted identity send, which a set flag rules out. */
  lemma TxStartStep(s: Server, i: Input)
    requires Admissible(s.config, i)
    ensures IsReset(i) ==> !Next(s, i).txStart && !IdentityAccepted(s, i)
    ensures !IsReset(i) ==> (Next(s, i).txStart <==> s.txStart || IdentityAccepted(s, i))
    ensures IdentityAccepted(s, i) ==> !s.txStart
  {
  }

  /** At-most-once identity: between two peer half-closes the socket accepts
      the identity packet at most once, and never again while `txStart`
      holds; `txStart` ends up set exactly when a send since the last reset
      was accepted (or it was set and no reset came). */
  lemma {:induction false} IdentityAtMostOncePerConnection(s: Server, ins: seq<Input>)
    requires AllAdmissible(s.config, ins)
    ensures IdentitySends(s, ins) + TxCount(s) <= 1 + Resets(ins)
    ensures Resets(ins) == 0 ==> (Final(s, ins).txStart <==> s.txStart || IdentitySends(s, ins) == 1)
    decreases |ins|
  {
    if ins != [] {
      AdmissibleTail(s, ins);
      var s' := Next(s, ins[0]);
      TxStartStep(s, ins[0]);
      IdentityAtMostOncePerConnection(s', ins[1..]);
    }
  }

  /** Within one connection (no half-close), at most one identity send succeeds. */
  lemma IdentityOnceWithoutReset(s: Server, ins: seq<Input>)
    requires AllAdmissible(s.config, ins)
    requires Resets(ins) == 0
    ensures IdentitySends(s, ins) <= 1
    ensures s.txStart ==> IdentitySends(s, ins) == 0
  {
    IdentityAtMostOncePerConnection(s, ins);
  }

  /** A poll that finds the socket writable and not half-closed, so that it
      offers the identity packet whenever `txStart` is clear. */
  predicate WritablePoll(i: Input) {
    i.PollInput? && i.sock.state != CloseWait && Arm(i.sock, i.listen).canSend
  }

  /** Every identity send of the run is accepted, as smoltcp does for a send
      made right after `can_send` held. */
  predicate IdentityNeverRefused(ins: seq<Input>) {
    forall k :: 0 <= k < |ins| && ins[k].PollInput? ==> ins[k].identity.Accepted?
  }

  /** Exactly-once identity: within one connection, when the library accepts
      every identity send, the identity packet is handed over once if some poll
      finds the socket writable while `txStart` is clear, and never otherwise. */
  lemma {:induction false} IdentityExactlyOnceWhenAccepted(s: Server, ins: seq<Input>)
    requires AllAdmissible(s.config, ins)
    requires Resets(ins) == 0 && IdentityNeverRefused(ins)
    ensures IdentitySends(s, ins) == if !s.txStart && (exists k :: 0 <= k < |ins| && WritablePoll(ins[k])) then 1 else 0
    decreases |ins|
  {
    if ins != [] {
      AdmissibleTail(s, ins);
      var s' := Next(s, ins[0]);
      TxStartStep(s, ins[0]);
      assert Resets(ins[1..]) == 0;
      assert IdentityNeverRefused(ins[1..]) by {
        forall k | 0 <= k < |ins[1..]| && ins[1..][k].PollInput?
          ensures ins[1..][k].identity.Accepted?
        {
          assert ins[1..][k] == ins[k + 1];
        }
      }
      IdentityExactlyOnceWhenAccepted(s', ins[1..]);
      if WritablePoll(ins[0]) {
        assert IdentityAccepted(s, ins[0]) <==> !s.txStart;
        assert s'.txStart;
      } else {
        assert !IdentityAccepted(s, ins[0]) && s'.txStart == s.txStart;
        if exists k :: 0 <= k < |ins| && WritablePoll(ins[k]) {
          var k :| 0 <= k < |ins| && WritablePoll(ins[k]);
          assert k > 0 && ins[1..][k - 1] == ins[k];
        }
        if exists k :: 0 <= k < |ins[1..]| && WritablePoll(ins[1..][k]) {
          var k :| 0 <= k < |ins[1..]| && WritablePoll(ins[1..][k]);
          assert ins[k + 1] == ins[1..][k];
        }
      }
    }
  }

  /** Only an accepted heartbeat in `poll` moves the heartbeat clock; every
      other operation leaves it where it was. */
  lemma HeartbeatStep(s: Server, i: Input)
    requires Admissible(s.config, i)
    ensures Next(s, i).lastHeartbeat == if HeartbeatAccepted(s, i) then i.now else s.lastHeartbeat
    ensures HeartbeatAccepted(s, i) ==> Elapsed(i.now, s.lastHeartbeat) > s.config.heartbeatInterval
  {
  }

  /** Heartbeat cadence: on a clock that never runs backwards, successive
      heartbeats from `poll` are strictly more than the interval apart, the
      first strictly more than the interval after the server's clock. */
  lemma {:induction false} HeartbeatsSpaced(s: Server, t: nat, ins: seq<Input>)
    requires AllAdmissible(s.config, ins)
    requires s.lastHeartbeat <= t && ClockFrom(t, ins)
    ensures Spaced(s.lastHeartbeat, HeartbeatTimes(s, ins), s.config.heartbeatInterval)
    decreases |ins|
  {
    if ins != [] {
      AdmissibleTail(s, ins);
      var s' := Next(s, ins[0]);
      HeartbeatStep(s, ins[0]);
      var t' := if ins[0].PollInput? then ins[0].now else t;
      HeartbeatsSpaced(s', t', ins[1..]);
      var rest := HeartbeatTimes(s', ins[1..]);
      if HeartbeatAccepted(s, ins[0]) {
        assert HeartbeatTimes(s, ins) == [ins[0].now] + rest;
        assert ([ins[0].now] + rest)[1..] == rest;
      } else {
        assert HeartbeatTimes(s, ins) == rest;
      }
    }
  }

  /** A refused heartbeat is retried: the clock stays put, so the next poll on
      a writable socket at the same or a later instant tries again. smoltcp
      refuses a send only when the socket may not send, which the `can_send`
      guard of `poll` rules out, so this path is not reached from `poll` on a
      real socket. The failure that can happen there is an accepted send that
      takes no bytes, and that one moves the clock and is not retried
      (`EmptyHeartbeatStillMovesClock`). */
  lemma HeartbeatRetried(s: Server, sock: Socket, now: nat, listen: ListenOutcome,
                         identity: SendOutcome, e: SendError,
                         sock2: Socket, later: nat, listen2: ListenOutcome,
                         identity2: SendOutcome, heartbeat2: SendOutcome)
    requires identity.FitsIn(|s.config.identity|)
    requires s.lastHeartbeat <= now <= later
    requires sock.state != CloseWait && sock2.state != CloseWait && Arm(sock2, listen2).canSend
    requires var r := Poll(s, sock, now, listen, identity, SendRefused(e));
      HeartbeatCall in r.result && identity2.FitsIn(|r.server.config.identity|)
        && heartbeat2.FitsIn(|r.server.config.heartbeat|)
    ensures var r := Poll(s, sock, now, listen, identity, SendRefused(e));
      r.server.lastHeartbeat == s.lastHeartbeat
        && HeartbeatCall in Poll(r.server, sock2, later, listen2, identity2, heartbeat2).result
  {
  }

  /** `recv_frame` repeated `k` times, each read handing over what is queued. */
  function Drain(s: Server, sock: Socket, k: nat): Step<seq<Result<Option<Bytes>, RecvError>>>
    decreases k
  {
    if k == 0 then Step(s, sock, [])
    else
      var one := RecvFrame(s, sock, Delivered, Delivered);
      var rest := Drain(one.server, one.socket, k - 1);
      Step(rest.server, rest.socket, [one.result] + rest.result)
  }

  function Flatten(frames: seq<Bytes>): Bytes
    decreases |frames|
  {
    if frames == [] then [] else frames[0] + Flatten(frames[1..])
  }

  function AsReceived(frames: seq<Bytes>): seq<Result<Option<Bytes>, RecvError>>
    decreases |frames|
  {
    if frames == [] then [] else [Ok(Some(frames[0]))] + AsReceived(frames[1..])
  }

  /** Alignment after the greeting: once `rxStart` holds, frames queued back
      to back come out one per call, in order, each consuming exactly its own
      bytes. */
  lemma {:induction false} DrainReturnsFrames(s: Server, sock: Socket, frames: seq<Bytes>, tail: Bytes)
    requires s.rxStart && sock.canRecv
    requires forall k :: 0 <= k < |frames| ==> |frames[k]| == s.config.frameWidth
    requires sock.rx == Flatten(frames) + tail
    ensures Drain(s, sock, |frames|).result == AsReceived(frames)
    ensures Drain(s, sock, |frames|).socket == sock.(rx := tail)
    ensures Drain(s, sock, |frames|).server == s
    decreases |frames|
  {
    if frames != [] {
      var f := frames[0];
      var more := Flatten(frames[1..]) + tail;
      assert sock.rx == f + more;
      var one := RecvFrame(s, sock, Delivered, Delivered);
      assert Discarded(s, sock, Delivered) == 0;
      assert sock.rx[0..] == f + more;
      assert one.result == Ok(Some(f)) && one.socket.rx == more by {
        var got := one.result.value.value;
        assert |got| == |f| && f + more == got + one.socket.rx;
        assert got == (f + more)[..|f|] == f;
        assert one.socket.rx == (f + more)[|f|..] == more;
      }
      forall k | 0 <= k < |frames[1..]|
        ensures |frames[1..][k]| == s.config.frameWidth
      {
        assert frames[1..][k] == frames[k + 1];
      }
      DrainReturnsFrames(one.server, one.socket, frames[1..], tail);
    }
  }

  /** The first read of a connection discards the peer's 30-byte greeting and,
      in the same call, returns the frame queued behind it. */
  lemma GreetingSkippedThenFrame(s: Server, sock: Socket, greeting: Bytes, frame: Bytes, tail: Bytes)
    requires !s.rxStart && sock.canRecv
    requires |greeting| == PrimeWidth && |frame| == s.config.frameWidth
    requires sock.rx == greeting + frame + tail
    ensures var r := RecvFrame(s, sock, Delivered, Delivered);
      r.result == Ok(Some(frame)) && r.socket == sock.(rx := tail) && r.server == s.(rxStart := true)
  {
    var r := RecvFrame(s, sock, Delivered, Delivered);
    assert sock.rx[PrimeWidth..] == frame + tail;
    var got := r.result.value.value;
    assert got == (frame + tail)[..|frame|] == frame;
    assert r.socket.rx == (frame + tail)[|frame|..] == tail;
  }

  /** A short greeting is swallowed whole by the priming read, so the same
      call finds nothing left and returns no frame. */
  lemma ShortGreetingReturnsNothing(s: Server, sock: Socket)
    requires !s.rxStart && sock.canRecv && |sock.rx| <= PrimeWidth && 0 < s.config.frameWidth
    ensures var r := RecvFrame(s, sock, Delivered, Delivered);
      r.result == Ok(None) && r.socket.rx == [] && r.server.rxStart
  {
  }

  /** A new session: the first poll only tries to listen, and whatever
      the bind does no identity or heartbeat goes out and no field changes. */
  lemma FreshSessionFirstPoll(config: Config, now: nat, later: nat, listen: ListenOutcome,
                              identity: SendOutcome, heartbeat: SendOutcome)
    requires identity.FitsIn(|config.identity|) && heartbeat.FitsIn(|config.heartbeat|)
    ensures var made := New(config, now);
      var r := Poll(made.server, made.socket, later, listen, identity, heartbeat);
      r.result == [ListenCall(config.port)] && r.server == made.server && r.socket.tx == []
  {
  }

  /** A refused bind is only logged: on a closed socket that cannot send,
      the poll changes no server field and leaves the socket as it was. */
  lemma ListenRefusedChangesNothing(s: Server, sock: Socket, now: nat, e: ListenError,
                                    identity: SendOutcome, heartbeat: SendOutcome)
    requires identity.FitsIn(|s.config.identity|) && heartbeat.FitsIn(|s.config.heartbeat|)
    requires !IsOpen(sock) && !sock.canSend
    ensures var r := Poll(s, sock, now, BindRefused(e), identity, heartbeat);
      r.server == s && r.socket == sock && ListenCall(s.config.port) in r.result
  {
  }

  /** After a half-close reset the session is back to its initial flags, and
      the poll after the library has finished closing the socket re-arms it. */
  lemma ResetThenRearm(s: Server, sock: Socket, now: nat, listen: ListenOutcome,
                       identity: SendOutcome, heartbeat: SendOutcome,
                       closed: Socket, later: nat, listen2: ListenOutcome)
    requires identity.FitsIn(|s.config.identity|) && heartbeat.FitsIn(|s.config.heartbeat|)
    requires sock.state == CloseWait && closed.state == Closed && !closed.canSend
    ensures var r := Poll(s, sock, now, listen, identity, heartbeat);
      var r2 := Poll(r.server, closed, later, listen2, identity, heartbeat);
      !r.server.txStart && !r.server.rxStart
        && ListenCall(s.config.port) in r2.result && r2.server == r.server
        && (listen2.Bound? ==> r2.socket.state == Listen)
  {
  }

  /** An accepted identity send marks the handshake done even when the socket
      took none of the packet's bytes. On a real socket this path is not
      reached, since the send follows `can_send()` and so takes at least one
      byte; the reachable case is the partial send below. */
  lemma EmptyIdentitySendStillStarts(s: Server, sock: Socket, now: nat, listen: ListenOutcome,
                                     heartbeat: SendOutcome)
    requires heartbeat.FitsIn(|s.config.heartbeat|)
    requires !s.txStart && sock.state == Established && sock.canSend
    ensures var r := Poll(s, sock, now, listen, Accepted(0), heartbeat);
      r.server.txStart && r.socket.tx == sock.tx + Enqueued(HeartbeatCall in r.result, s.config.heartbeat, heartbeat)
  {
  }

  /** An identity send accepted for only a prefix of the packet marks the
      handshake done: the prefix is all of the identity the peer will see,
      since `txStart` keeps the rest from ever being sent. */
  lemma PartialIdentitySendStillStarts(s: Server, sock: Socket, now: nat, listen: ListenOutcome,
                                       n: nat, heartbeat: SendOutcome)
    requires 0 < n < |s.config.identity|
    requires heartbeat.FitsIn(|s.config.heartbeat|)
    requires !s.txStart && sock.state == Established && sock.canSend
    ensures var r := Poll(s, sock, now, listen, Accepted(n), heartbeat);
      r.server.txStart
        && r.socket.tx == sock.tx + s.config.identity[..n]
                          + Enqueued(HeartbeatCall in r.result, s.config.heartbeat, heartbeat)
  {
  }

  /** An accepted heartbeat moves the heartbeat clock even when the socket
      took none of the record's bytes. */
  lemma EmptyHeartbeatStillMovesClock(s: Server, sock: Socket, now: nat, listen: ListenOutcome,
                                      identity: SendOutcome)
    requires identity.FitsIn(|s.config.identity|)
    requires sock.state == Established && sock.canSend
    requires Elapsed(now, s.lastHeartbeat) > s.config.heartbeatInterval
    ensures var r := Poll(s, sock, now, listen, identity, Accepted(0));
      HeartbeatCall in r.result && r.server.lastHeartbeat == now
        && r.socket.tx == sock.tx + Enqueued(IdentityCall in r.result, s.config.identity, identity)
  {
  }

  /** A connection ends for the server only at a poll that finds CloseWait.
      When the library drops a connection straight to Closed (a reset from the
      peer, or the idle timeout), the re-arming poll keeps both flags, so the
      next connection gets no identity packet and its first frame-width bytes,
      part of the peer's greeting, come back from `recv_frame` as a frame. */
  lemma AbortKeepsFlags(s: Server, aborted: Socket, now: nat, listen: ListenOutcome,
                        identity: SendOutcome, heartbeat: SendOutcome,
                        next: Socket, later: nat, listen2: ListenOutcome,
                        identity2: SendOutcome, heartbeat2: SendOutcome,
                        prime: RecvOutcome)
    requires identity.FitsIn(|s.config.identity|) && heartbeat.FitsIn(|s.config.heartbeat|)
    requires identity2.FitsIn(|s.config.identity|) && heartbeat2.FitsIn(|s.config.heartbeat|)
    requires s.txStart && s.rxStart
    requires aborted.state == Closed && !aborted.canSend
    requires next.state == Established && next.canSend && next.canRecv
    requires |next.rx| >= s.config.frameWidth
    ensures var r := Poll(s, aborted, now, listen, identity, heartbeat);
      var r2 := Poll(r.server, next, later, listen2, identity2, heartbeat2);
      var got := RecvFrame(r2.server, r2.socket, prime, Delivered);
      && r.server == s
      && IdentityCall !in r2.result && r2.server.txStart && r2.server.rxStart
      && got.result == Ok(Some(r2.socket.rx[..s.config.frameWidth]))
  {
  }
}

=== FILE: server.dfy ===
/** The per-connection session server of tritiumcan-smoltcp (`Server` in
    src/tcp.rs): three state fields driven by `poll`, `send_heartbeat`,
    `send_frame` and `recv_frame` over one abstract TCP socket. Every
    operation is a pure function from the server, the socket and the
    library's outcomes to the next server, the next socket and the result. */
module TcpServer {
  import opened TcpSocket

  /** The size of the scratch buffer the first read of a connection discards into. */
  const PrimeWidth: nat := 30

  /** What the server is built with. The crate constants (`PORT`,
      `HEARTBEAT_INTERVAL`, the width of a `Frame`) and the two records the
      codec produces from the configured bus number, MAC address and data rate
      are taken as they are, so every proof holds for any values of them. */
  datatype Config = Config(
    port: nat,
    heartbeatInterval: nat,  // in clock ticks
    frameWidth: nat,         // size_of::<Frame>()
    identity: Bytes,         // the identity packet: header, then a zeroed frame slot
    heartbeat: Bytes         // the heartbeat record that fills one frame slot
  )

  datatype Server = Server(
    config: Config,
    lastHeartbeat: nat,
    txStart: bool,  // the identity packet has been handed to the socket
    rxStart: bool   // the peer's greeting has been discarded
  )

  /** The server and socket after one operation, with what the operation returns. */
  datatype Step<+R> = Step(server: Server, socket: Socket, result: R)

  /** The socket calls `poll` makes, in order. */
  datatype Call = ListenCall(port: nat) | CloseCall | IdentityCall | HeartbeatCall

  /** smoltcp's `Instant - Instant`: the distance between two instants. */
  function Elapsed(now: nat, since: nat): nat {
    if now >= since then now - since else since - now
  }

  /** `Server::new`: a fresh server beside a fresh, closed socket with empty queues. */
  function New(config: Config, now: nat): (r: Step<()>)
    ensures r.server.config == config && r.server.lastHeartbeat == now
    ensures !r.server.txStart && !r.server.rxStart
    ensures !IsOpen(r.socket) && !r.socket.canSend && !r.socket.canRecv
    ensures r.socket.rx == [] && r.socket.tx == []
  {
    Step(Server(config, now, false, false), Socket(Closed, false, false, [], []), ())
  }

  /** Whether `poll` must re-arm the socket before anything else. */
  predicate NeedsListen(sock: Socket) {
    !IsOpen(sock) && !IsListening(sock)
  }

  /** `is_open` already excludes Listen, so the inner `is_listening` test of
      `poll` never decides anything: a listen is needed exactly in Closed and
      TimeWait. */
  lemma NeedsListenExactlyWhenClosed(sock: Socket)
    ensures NeedsListen(sock) <==> sock.state == Closed || sock.state == TimeWait
  {
  }

  /** The first step of `poll`: bind a passive listen when the socket is
      neither open nor listening. A refused bind is only logged. */
  function Arm(sock: Socket, outcome: ListenOutcome): (r: Socket)
    ensures !NeedsListen(sock) || outcome.BindRefused? ==> r == sock
    ensures NeedsListen(sock) && outcome.Bound? ==> r.state == Listen && !r.canSend && r.tx == []
    ensures r.state == CloseWait <==> sock.state == CloseWait
  {
    if NeedsListen(sock) then ListenOn(sock, outcome) else sock
  }

  /** The identity step of `poll` on a writable socket: offer the identity
      packet unless it was handed over before. Any accepted send, even one
      that took none of the bytes, marks it handed over. */
  function StartTx(s: Server, sock: Socket, outcome: SendOutcome): (r: Step<bool>)
    requires outcome.FitsIn(|s.config.identity|)
    ensures r.result <==> !s.txStart
    ensures r.server == s.(txStart := s.txStart || outcome.Accepted?)
    ensures r.socket == sock.(tx := sock.tx + Enqueued(r.result, s.config.identity, outcome))
  {
    if s.txStart then Step(s, sock, false)
    else
      var sent := SendSlice(sock, s.config.identity, outcome);
      Step(s.(txStart := sent.result.Ok?), sent.socket, true)
  }

  /** `write_heartbeat`: offer one heartbeat record, whatever the session state. */
  function WriteHeartbeat(config: Config, sock: Socket, outcome: SendOutcome): (r: (Socket, Result<(), SendError>))
    requires outcome.FitsIn(|config.heartbeat|)
    ensures r.1.Ok? <==> outcome.Accepted?
    ensures outcome.SendRefused? ==> r.1 == Err(outcome.error)
    ensures r.0 == sock.(tx := sock.tx + Enqueued(true, config.heartbeat, outcome))
  {
    var sent := SendSlice(sock, config.heartbeat, outcome);
    match sent.result
    case Ok(_) => (sent.socket, Ok(()))
    case Err(e) => (sent.socket, Err(e))
  }

  /** The heartbeat step of `poll` on a writable socket: only once strictly
      more than the interval has passed, and the clock moves only when the
      send is accepted, so a refused heartbeat is retried by the next poll. */
  function BeatIfDue(s: Server, sock: Socket, now: nat, outcome: SendOutcome): (r: Step<bool>)
    requires outcome.FitsIn(|s.config.heartbeat|)
    ensures r.result <==> Elapsed(now, s.lastHeartbeat) > s.config.heartbeatInterval
    ensures r.server == s.(lastHeartbeat := if r.result && outcome.Accepted? then now else s.lastHeartbeat)
    ensures r.socket == sock.(tx := sock.tx + Enqueued(r.result, s.config.heartbeat, outcome))
  {
    if Elapsed(now, s.lastHeartbeat) > s.config.heartbeatInterval then
      var (sock', res) := WriteHeartbeat(s.config, sock, outcome);
      Step(if res.Ok? then s.(lastHeartbeat := now) else s, sock', true)
    else Step(s, sock, false)
  }

  /** `poll`: re-arm a closed socket, reset on a peer half-close, otherwise on
      a writable socket hand over the identity packet once and a heartbeat
      when due. The result lists the socket calls made. */
  function Poll(s: Server, sock: Socket, now: nat, listen: ListenOutcome,
                identity: SendOutcome, heartbeat: SendOutcome): (r: Step<seq<Call>>)
    requires identity.FitsIn(|s.config.identity|)
    requires heartbeat.FitsIn(|s.config.heartbeat|)
    ensures r.server.config == s.config
    // the listen attempt, and only when the socket is Closed or TimeWait
    ensures ListenCall(s.config.port) in r.result <==> sock.state == Closed || sock.state == TimeWait
    ensures forall c :: c in r.result && c.ListenCall? ==> c == ListenCall(s.config.port)
    // a peer half-close: close, clear both flags, send nothing, keep the clock
    ensures sock.state == CloseWait ==>
      && r.server == s.(txStart := false, rxStart := false)
      && CloseCall in r.result && IdentityCall !in r.result && HeartbeatCall !in r.result
      && r.socket == sock.(state := LastAck, canSend := false)
    // otherwise: the identity once, a heartbeat when strictly due, both only when writable
    ensures sock.state != CloseWait ==>
      && CloseCall !in r.result
      && r.server.rxStart == s.rxStart
      && (IdentityCall in r.result <==> Arm(sock, listen).canSend && !s.txStart)
      && (r.server.txStart <==> s.txStart || (IdentityCall in r.result && identity.Accepted?))
      && (HeartbeatCall in r.result <==>
            Arm(sock, listen).canSend && Elapsed(now, s.lastHeartbeat) > s.config.heartbeatInterval)
      && r.server.lastHeartbeat == (if HeartbeatCall in r.result && heartbeat.Accepted? then now else s.lastHeartbeat)
      && r.socket == Arm(sock, listen).(tx := Arm(sock, listen).tx
                        + Enqueued(IdentityCall in r.result, s.config.identity, identity)
                        + Enqueued(HeartbeatCall in r.result, s.config.heartbeat, heartbeat))
  {
    var armed := Arm(sock, listen);
    var calls := if NeedsListen(sock) then [ListenCall(s.config.port)] else [];
    if armed.state == CloseWait then
      Step(s.(txStart := false, rxStart := false), CloseFromCloseWait(armed), calls + [CloseCall])
    else if armed.canSend then
      var id := StartTx(s, armed, identity);
      var beat := BeatIfDue(id.server, id.socket, now, heartbeat);
      var calls' := calls + (if id.result then [IdentityCall] else [])
                          + (if beat.result then [HeartbeatCall] else []);
      Step(beat.server, beat.socket, calls')
    else
      Step(s, armed, calls)
  }

  /** `send_heartbeat`: an explicit heartbeat that leaves every server field,
      the heartbeat clock included, as it was. */
  function SendHeartbeat(s: Server, sock: Socket, outcome: SendOutcome): (r: Step<Result<(), SendError>>)
    requires outcome.FitsIn(|s.config.heartbeat|)
    ensures r.server == s
    ensures r.result.Ok? <==> outcome.Accepted?
    ensures r.socket == sock.(tx := sock.tx + Enqueued(true, s.config.heartbeat, outcome))
  {
    var (sock', res) := WriteHeartbeat(s.config, sock, outcome);
    Step(s, sock', res)
  }

  /** `send_frame`, given the frame's wire encoding (the conversion at the
      start of `send_frame` must succeed). The frame is offered only on a
      writable socket after the identity packet, and the call reports
      `InvalidState` on every path, an accepted send included. */
  function SendFrame(s: Server, sock: Socket, frame: Bytes, outcome: SendOutcome): (r: Step<Result<(), SendError>>)
    requires |frame| == s.config.frameWidth
    requires outcome.FitsIn(|frame|)
    ensures r.server == s
    ensures r.result == Err(SendInvalidState)
    // follows from the ensures above, as `SendError` has a single variant
    ensures sock.canSend && s.txStart && outcome.SendRefused? ==> r.result == Err(outcome.error)
    ensures r.socket == sock.(tx := sock.tx + Enqueued(sock.canSend && s.txStart, frame, outcome))
  {
    if sock.canSend && s.txStart then
      var sent := SendSlice(sock, frame, outcome);
      match sent.result
      case Err(e) =>
        // smoltcp has no other send error; the verifier needs this step for
        // the second ensures, which the third then restates for refusals
        assert e == SendInvalidState;
        Step(s, sent.socket, Err(e))
      case Ok(_) => Step(s, sent.socket, Err(SendInvalidState))
    else
      Step(s, sock, Err(SendInvalidState))
  }

  /** How many queued bytes the priming read of `recv_frame` takes. */
  function Discarded(s: Server, sock: Socket, prime: RecvOutcome): (n: nat)
    ensures n <= |sock.rx| && n <= PrimeWidth
  {
    if sock.canRecv && !s.rxStart && prime.Delivered? then Min(PrimeWidth, |sock.rx|) else 0
  }

  /** `recv_frame`: on a readable socket, discard the greeting once (up to 30
      bytes, whatever that read reports), then read one frame slot; a frame is
      returned only when the read filled the slot, a short read is consumed
      and dropped, and a refused read is reported. */
  function RecvFrame(s: Server, sock: Socket, prime: RecvOutcome, read: RecvOutcome)
    : (r: Step<Result<Option<Bytes>, RecvError>>)
    ensures r.server == s.(rxStart := s.rxStart || sock.canRecv)
    ensures r.socket == sock.(rx := r.socket.rx)
    ensures !sock.canRecv ==> r.socket == sock && r.result == Ok(None)
    ensures sock.canRecv ==>
      var rest := sock.rx[Discarded(s, sock, prime)..];
      && (r.result.Err? <==> read.RecvRefused?)
      && (read.RecvRefused? ==> r.result == Err(read.error) && r.socket.rx == rest)
      && (r.result.Ok? && r.result.value.Some? <==> read.Delivered? && |rest| >= s.config.frameWidth)
      && (r.result.Ok? && r.result.value.Some? ==>
            |r.result.value.value| == s.config.frameWidth && rest == r.result.value.value + r.socket.rx)
      && (r.result == Ok(None) ==> r.socket.rx == [])
  {
    if !sock.canRecv then Step(s, sock, Ok(None))
    else
      var primed := if !s.rxStart then RecvSlice(sock, PrimeWidth, prime).socket else sock;
      var s' := s.(rxStart := true);
      var got := RecvSlice(primed, s.config.frameWidth, read);
      match got.result
      case Err(e) => Step(s', got.socket, Err(e))
      case Ok(bytes) =>
        if |bytes| != s.config.frameWidth then Step(s', got.socket, Ok(None))
        else Step(s', got.socket, Ok(Some(bytes)))
  }
}

=== FILE: socket.dfy ===
/** An abstract model of the smoltcp TCP socket, reduced to what the session
    server observes of it: the connection state, the two readiness flags, the
    receive and transmit byte queues, and the outcome of each library call.
    The outcome of every call into the library (listen, send_slice,
    recv_slice) is a parameter, so the model covers every outcome the library
    may choose. */
module TcpSocket {

  type Bytes = seq<bv8>

  datatype Result<+T, +E> = Ok(value: T) | Err(error: E)

  datatype Option<+T> = None | Some(value: T)

  /** The connection states of smoltcp's `socket::tcp::State`. */
  datatype State =
    | Closed | Listen | SynSent | SynReceived | Established
    | FinWait1 | FinWait2 | CloseWait | Closing | LastAck | TimeWait

  /** smoltcp's `SendError` has a single variant. */
  datatype SendError = SendInvalidState

  datatype RecvError = RecvInvalidState | Finished

  datatype ListenError = ListenInvalidState | Unaddressable

  datatype Socket = Socket(
    state: State,
    canSend: bool,
    canRecv: bool,
    rx: Bytes,  // bytes received and not yet read, oldest first
    tx: Bytes   // bytes enqueued for transmission, oldest first
  )

  /** smoltcp's `is_open`: every state but Closed and TimeWait, Listen included. */
  predicate IsOpen(sock: Socket) {
    sock.state != Closed && sock.state != TimeWait
  }

  predicate IsListening(sock: Socket) {
    sock.state == Listen
  }

  /** What `listen` does this time. */
  datatype ListenOutcome = Bound | BindRefused(error: ListenError)

  /** What `send_slice` does this time: accept the first `count` bytes, or refuse. */
  datatype SendOutcome = Accepted(count: nat) | SendRefused(error: SendError) {
    /** The library never reports more bytes than it was offered. */
    predicate FitsIn(len: nat) {
      Accepted? ==> count <= len
    }
  }

  /** What `recv_slice` does this time: hand over what is queued, or refuse. */
  datatype RecvOutcome = Delivered | RecvRefused(error: RecvError)

  function Min(a: nat, b: nat): nat {
    if a <= b then a else b
  }

  /** `listen`: a successful bind resets the socket (both queues emptied,
      neither ready) and enters Listen; a refused bind leaves it as it was. */
  function ListenOn(sock: Socket, outcome: ListenOutcome): Socket {
    match outcome
    case Bound => Socket(Listen, false, false, [], [])
    case BindRefused(_) => sock
  }

  /** `close` from CloseWait: the local FIN is queued and the socket enters
      LastAck, where it may no longer send. */
  function CloseFromCloseWait(sock: Socket): Socket
    requires sock.state == CloseWait
  {
    sock.(state := LastAck, canSend := false)
  }

  datatype Sent = Sent(socket: Socket, result: Result<nat, SendError>)

  /** `send_slice`: an accepted send appends the accepted prefix to the transmit queue. */
  function SendSlice(sock: Socket, data: Bytes, outcome: SendOutcome): Sent
    requires outcome.FitsIn(|data|)
  {
    match outcome
    case Accepted(n) => Sent(sock.(tx := sock.tx + data[..n]), Ok(n))
    case SendRefused(e) => Sent(sock, Err(e))
  }

  datatype Received = Received(socket: Socket, result: Result<Bytes, RecvError>)

  /** `recv_slice` into a buffer of `len` bytes: a delivering read takes as many
      queued bytes as fit, oldest first. */
  function RecvSlice(sock: Socket, len: nat, outcome: RecvOutcome): Received {
    match outcome
    case Delivered =>
      var n := Min(len, |sock.rx|);
      Received(sock.(rx := sock.rx[n..]), Ok(sock.rx[..n]))
    case RecvRefused(e) => Received(sock, Err(e))
  }

  /** The bytes a send with this outcome appends, or nothing when no send was made. */
  function Enqueued(attempted: bool, data: Bytes, outcome: SendOutcome): Bytes {
    if attempted && outcome.Accepted? && outcome.count <= |data| then data[..outcome.count] else []
  }
}
